=== FILE: README.md ===
# cosmology numerics and mass variance, modelled in Dafny

This project models the numerical core of the `cosmology` package over exact
reals:

- `rk23`: the adaptive Bogacki–Shampine 3(2) integrator and its step
  controller.
- `cubic`: the Hermite cubic interpolation. It does a bracket search by
  `np.digitize`, then evaluates a cubic in Horner form.
- `antideriv`: integrates a function into knot arrays and, on request, builds
  the knot arrays of the inverse function.
- `sigma2_r`: the mass variance of a matter power spectrum by a biased FFTLog
  transform. The model covers:
  - the input checks and their order;
  - the low-ringing adjustment of `kr`;
  - the coefficient array and its even-`n` fix;
  - the in-place result assembly and the output grid `r`;
  - the 2-tuple or 3-tuple result.

Modules:

- `Sequences` (`sequences.dfy`): `Option`/`Result`, `a[::-1]` (`Reversed`),
  `np.diff` (`Diff`) and strict monotonicity.
- `Floats` (`floats.dfy`): true division with the division-by-zero result left
  abstract (`Div`), `np.fabs`, and the facts assumed of `b ** e` (`PowerLaw`).
- `Numerical` (`numerical.dfy`): `cosmology/_numerical.py`.
  - `Rk23` is a method with a `while` loop whose invariants carry the
    knot-array properties.
  - `cubic` is pure functions and lemmas.
  - `Antideriv` calls `Rk23` and the pure `InverseKnots`.
- `Structure` (`structure.dfy`): `sigma2_r` in `cosmology/_structure.py`.
  - Validation, the kernel `U`, the frequencies and the coefficients are pure
    functions.
  - The assembly of the result is imperative and works on arrays in place:
    - `u.imag[-1] = 0`;
    - `cm *= u` and `cm *= -(1+q+1j*y)`;
    - `s2[..., :] = s2[..., ::-1]`;
    - `s2 /= 2*PI**2` and `s2 /= r**(1+q)`.
  - Each of these steps is a method proved against a specification function.

Some behaviour is a parameter of the model rather than part of it:

- `f`, `np.log`, `np.exp` (real and complex), `loggamma`, `np.angle`,
  `np.allclose`, `np.isclose`, `np.fft.rfft` and `np.fft.irfft`.
- `b ** e` for non-integer `e`.
- The IEEE result of a division by zero.

The proofs assume only three facts about `b ** e` (`PowerLaw`):
it is positive for a positive base, below 1 for a base in (0, 1) with a
positive exponent, and 0 for base 0 with a positive exponent.

## Model

| member | source | states |
|---|---|---|
| `Numerical.Rk23` | cosmology/_numerical.py:9-49 | The returned arrays have equal length and start at (x0, y0). Every stored derivative is `f` at its abscissa. Consecutive knots are joined by an accepted step (D1 <= D0) that advances to the embedded estimate. When x0 < x1 the last knot is exactly x1; otherwise only (x0, y0, f(x0)) is returned. When `b ** e` obeys `PowerLaw`, h > 0, atol >= 0 and rtol >= 0, the abscissas strictly increase. This includes a pure relative tolerance (atol = 0): there a run whose step collapses to 0 never reaches x1, so it ends only when the fuel runs out. |
| `Numerical.Stages` | cosmology/_numerical.py:21-31 | The stage values are four evaluations of `f`, and the first is `f(xn)` because a[0] = 0. |
| `Numerical.ClampedStep` | cosmology/_numerical.py:29-30 | The clamped step never exceeds h. It never carries xn past x1. It stays positive when h is, and equals h when no clamping is needed. |
| `Numerical.GrownStep` | cosmology/_numerical.py:38 | After an accepted step, D1 = 0 doubles h. Otherwise the new step is positive when h > 0 and D0 >= D1 >= 0. |
| `Numerical.ShrunkStepPositive` | cosmology/_numerical.py:44-45 | `ShrunkStep` (S*h*(D0/D1)**0.25): a rejected step (0 < D0 < D1) keeps a positive step positive. |
| `Numerical.ShrunkStepSmaller` | cosmology/_numerical.py:44-45 | `ShrunkStep`: a rejected step (0 <= D0 < D1) makes the step strictly smaller. |
| `Numerical.ShrunkStepNonNegative` | cosmology/_numerical.py:44-45 | A rejected step (0 <= D0 < D1) never makes the step negative. With D0 = 0 it becomes exactly 0, since `0.0 ** 0.25` is 0. |
| `Numerical.TolerancePositive` | cosmology/_numerical.py:35 | `Tolerance`, the D0 of a step, is > 0 whenever atol > 0 and rtol >= 0. |
| `Numerical.ToleranceNonNegative` | cosmology/_numerical.py:35 | D0 >= 0 whenever atol >= 0 and rtol >= 0. |
| `Numerical.RejectedStepShrinks` | cosmology/_numerical.py:28-45 | On a rejected step from a positive h (with atol >= 0 and rtol >= 0), the next step is smaller than h, whether or not the step was clamped at x1. |
| `Numerical.AcceptedStep` | cosmology/_numerical.py:32-43 | A step within tolerance joins (xn, yn) to (xn + h, embedded estimate). |
| `Numerical.AppendAcceptedStep` | cosmology/_numerical.py:37-43 | Appending the knot of an accepted step keeps every property of the returned arrays. |
| `Numerical.AffineStepExact` | cosmology/_numerical.py:31-36 | For an affine f, both weight sets (`HighOrder` with c, `Embedded` with cs) integrate one step exactly. So `ErrorEstimate`, the D1 of the step, is 0 and the embedded estimate is the exact antiderivative increment. |
| `Numerical.AffineKnotsExact` | cosmology/_numerical.py:26-49 | For an affine f, every returned knot value is the exact antiderivative through (x0, y0). |
| `Numerical.Digitize` | cosmology/_numerical.py:54 | On increasing knots, `np.digitize` returns the count of knots <= xi. Every knot before it is <= xi, and every knot from it on is > xi. |
| `Numerical.HornerIsPowerForm` | cosmology/_numerical.py:64-69 | The Horner form equals a t^3 + b t^2 + c t + d. |
| `Numerical.HermiteEnds` | cosmology/_numerical.py:64-69 | The cubic `Hermite` is f0 at t = 0 and f1 at t = 1, with slopes fp0 and fp1 there. |
| `Numerical.HermiteTaylor` | cosmology/_numerical.py:64-69 | `HermiteSlope` is the derivative of the cubic: the remainder of the first-order expansion is quadratic in the increment. |
| `Numerical.SegmentHermite` | cosmology/_numerical.py:57-69 | One `Segment` (the cubic on [x[i0], x[i1]] with t = (xi - x0)/dx and slopes scaled by dx) matches the knot values and the knot derivatives with respect to xi at both of its ends. |
| `Numerical.SegmentTaylor` | cosmology/_numerical.py:57-69 | `SegmentSlope` is the derivative of a segment with respect to xi. |
| `Numerical.BracketInRange` | cosmology/_numerical.py:54-59 | For x[0] <= xi < x[N-1]: 0 <= i0 < i1 <= N-1, x[i0] <= xi < x[i1], and 0 <= t < 1. |
| `Numerical.BracketUnique` | cosmology/_numerical.py:54-55 | Only the segment that ends at the digitize index contains xi. |
| `Numerical.CubicAsWritten` | cosmology/_numerical.py:52-69 | As written, on queries in [x[0], x[N-1]), the result is the Hermite segment of the knot interval that contains xi. |
| `Numerical.DigitizeAtLastKnot` | cosmology/_numerical.py:54-57 | At the last knot the bracket index is N, one past the end of the arrays. |
| `Numerical.Cubic` | cosmology/_numerical.py:52-69 | The corrected interpolant agrees with the source's segments inside the range and returns the last value at the last knot. |
| `Numerical.CubicAgreesBelowLastKnot` | cosmology/_numerical.py:52-69 | Below the last knot, the corrected interpolant equals the source's. |
| `Numerical.CubicAtKnot` | cosmology/_numerical.py:52-69 | Querying any knot returns its value exactly. |
| `Numerical.SegmentsJoinSmoothly` | cosmology/_numerical.py:52-69 | Adjacent segments meet at an interior knot with the knot's value and derivative. |
| `Numerical.ReciprocalsTwice` | cosmology/_numerical.py:88 | `Reciprocals` (`1/yp` elementwise) is its own inverse on arrays without zero entries: `1/(1/yp) == yp`. |
| `Numerical.ReciprocalsReversed` | cosmology/_numerical.py:90 | Taking reciprocals commutes with reversal, so `1/yp[::-1]` is `(1/yp)[::-1]`. |
| `Numerical.InverseKnots` | cosmology/_numerical.py:85-92 | The inverse exists exactly when y strictly increases or strictly decreases; otherwise the result is 'antiderivative not invertible'. The new abscissas strictly increase. Each entry i is (y, x, 1/yp) at index i, or at N-1-i when y decreases. |
| `Numerical.InverseOfIncreasing` | cosmology/_numerical.py:86-88 | An increasing y is swapped with x without reordering. |
| `Numerical.InverseOfDecreasing` | cosmology/_numerical.py:89-90 | A decreasing y is swapped with x with all three arrays reversed. |
| `Numerical.InverseTwice` | cosmology/_numerical.py:85-92 | Inverting the inverse of increasing knots with non-zero derivatives gives back the original knots. |
| `Numerical.AntiderivativeStartsAtC` | cosmology/_numerical.py:81-83 | The antiderivative's value at x0 is c. |
| `Numerical.Antideriv` | cosmology/_numerical.py:72-94 | Returns `ad` alone exactly when inverse is false. `ad` has the integrator's properties and equals c at x0. The inverse is the checked inverse construction. 'not invertible' is raised only when an inverse was asked for. It is raised only for knots that share every property the integrator promises: the start (x0, c), accepted steps, a last knot at x1 (or the single knot when x0 >= x1), and increasing abscissas under `PowerLaw` with h > 0, atol >= 0 and rtol >= 0. Those knots have a y that neither strictly increases nor strictly decreases. |
| `Sequences.PositiveDiffIffIncreasing` | cosmology/_numerical.py:86-87 | With `Diff` as `np.diff`, `np.all(np.diff(y) > 0)` holds exactly when y strictly increases, vacuously for fewer than two points. |
| `Sequences.NegativeDiffIffDecreasing` | cosmology/_numerical.py:89 | `np.all(np.diff(y) < 0)` holds exactly when y strictly decreases. |
| `Sequences.ReversedTwice` | cosmology/_numerical.py:90 | `Reversed` (`a[::-1]`) applied twice gives back the original. |
| `Sequences.ReversedIndexes` | cosmology/_numerical.py:90 | Entry i of `a[::-1]` is entry N-1-i of a. |
| `Sequences.ReversedDecreasingIncreases` | cosmology/_numerical.py:89-90 | Reversing a strictly decreasing y gives a strictly increasing one, the new abscissas of the inverse. |
| `Floats.Div` | cosmology/_structure.py:214-215 | True division: on a non-zero divisor the quotient times the divisor is the dividend. |
| `Floats.Abs` | cosmology/_numerical.py:35-36 | `np.fabs` is non-negative and is either v or -v. |
| `Structure.CheckWindow` | cosmology/_structure.py:166-182 | tophat is accepted exactly for -1 < q < 3, and otherwise raises the tophat bias error. gaussian is accepted exactly for q > -1, and otherwise raises the gaussian bias error. Any other name raises the unknown-window ValueError. |
| `Structure.UnknownWindowMessageNamesWindow` | cosmology/_structure.py:182 | The unknown-window message ends with the rejected name, so different names give different messages. |
| `Structure.Validate` | cosmology/_structure.py:146-182 | The checks run in source order: the TypeErrors for k's dimension and pk's last axis, then k[0], then the logarithmic-grid ValueError (also for a single point), then window and bias. An empty k is the IndexError of `k[0]`, and a one-point or non-logarithmic k is the grid error whatever the window and bias. Success means all of them passed, and the grid spacing is (log k[n-1] - log k[0])/(n-1). |
| `Structure.GridExponentSpacing` | cosmology/_structure.py:152-162 | The reference grid starts at log k[0], ends at log k[n-1] and steps by dlnk. |
| `Structure.AcceptedBiasAvoidsPoles` | cosmology/_structure.py:166-179 | For the kernel `U` of either window, an accepted bias keeps every log-gamma argument of U(q + iy) in the right half-plane, and the tophat factor (4-x)^2 - 1 away from zero. |
| `Structure.TophatPoleAtThree` | cosmology/_structure.py:166-172 | At q = 3 the zero-frequency tophat coefficient divides by zero, so the bound is sharp. |
| `Structure.RoundHalfEven` | cosmology/_structure.py:189 | `np.round` returns the nearest integer, and an even one on ties. |
| `Structure.LowRingingShiftBound` | cosmology/_structure.py:185-189 | `LowRingingLnkr` moves log kr by at most half a grid step. |
| `Structure.ShiftBound` | cosmology/_structure.py:188-189 | `Shift`, dlnk*(a - np.round(a)), is at most half of dlnk in absolute value. |
| `Structure.LowRingingFixedPoint` | cosmology/_structure.py:185-189 | A kr whose Nyquist `Coefficient` already has an angle that is a multiple of PI is left unchanged by `LowRingingLnkr`. |
| `Structure.FrequenciesFormula` | cosmology/_structure.py:192 | The n//2+1 frequencies are y_m = 2 PI m/(n dlnk). |
| `Structure.RawCoefficientsAtFrequencies` | cosmology/_structure.py:192-193 | Entry m of `Coefficients` on a validated grid is the `Coefficient` exp(-i y lnkr) U(q + i y) at y = 2 PI m/(n dlnk). |
| `Structure.Frequencies` | cosmology/_structure.py:192 | There are n//2 + 1 frequencies. |
| `Structure.NyquistFixed` | cosmology/_structure.py:200-202 | For even n only the imaginary part of the last coefficient becomes 0. For odd n nothing changes. |
| `Structure.FixNyquist` | cosmology/_structure.py:200-202 | The in-place fix leaves u as `NyquistFixed` describes. |
| `Structure.RGrid` | cosmology/_structure.py:211 | r[i] is exp(lnkr) divided by k[n-1-i]. |
| `Structure.RGridPairsWithK` | cosmology/_structure.py:211 | r[i] * k[n-1-i] = exp(lnkr) for every i. |
| `Structure.RGridIncreasing` | cosmology/_structure.py:211 | A positive increasing k gives an increasing r. |
| `Structure.WeightedPositive` | cosmology/_structure.py:205 | `Weighted`, the transform input pk*k**(2-q), is positive for a positive spectrum on a positive k grid when `b ** e` obeys `PowerLaw`. |
| `Structure.RowOutputAt` | cosmology/_structure.py:207-215 | Entry i of `RowOutput` is inverse-transform sample n-1-i divided by 2 PI^2 r_i^(1+q). |
| `Structure.DerivativeKernel` | cosmology/_structure.py:206-222 | Scaling cm in place by `DerivativeFactors`, -(1+q+iy), after u is the transform with kernel u * -(1+q+iy). |
| `Structure.MultiplyInPlace` | cosmology/_structure.py:206 | `cm *= f` multiplies every coefficient by its factor. |
| `Structure.ReverseInPlace` | cosmology/_structure.py:208 | The in-place reversal leaves the array reversed. |
| `Structure.DivideAllInPlace` | cosmology/_structure.py:214 | Every entry is divided by the constant. |
| `Structure.DivideEachInPlace` | cosmology/_structure.py:215 | Every entry is divided by its own divisor. |
| `Structure.Finish` | cosmology/_structure.py:207-215 | Inverse transform, reversal and both divisions give `RowOutput`. |
| `Structure.TransformRow` | cosmology/_structure.py:205-226 | s2 of one row, and ds2 when asked. The later in-place scaling of cm for the derivative does not change s2. |
| `Structure.TransformRows` | cosmology/_structure.py:205-226 | Every row of pk is transformed independently. |
| `Structure.Sigma2R` | cosmology/_structure.py:146-230 | A failed check is returned before anything is computed. With `krgood`, a non-real Nyquist coefficient is the low-ringing ValueError. Otherwise the result is `(r, s2)`, or `(r, s2, ds2)` exactly when deriv. r is the mirrored k grid, and each s2 and ds2 row is the transform of its pk row with the fixed coefficients. |

## Left out

- Floating-point rounding: everything is over exact reals. "The last knot is x1" and the Hermite identities hold only in exact arithmetic.
- The IEEE result of a division by zero (an infinity or a NaN) is the abstract `overZero`. Consequences of NaN propagation are not modelled, except that a one-point k fails the grid check.
- `b ** e` for non-integer e is an abstract function. The facts about it are stated only under `PowerLaw`.
- `Rk23`: the source loop need not terminate (D0 = 0 collapses h), so the model takes a step budget `fuel`. `None` means the budget ran out; every property is stated on the runs that return.
- `Antideriv`: the `OutOfFuel` error stands for a run of `rk23` that does not return.
- `f` is called four times per step rather than once on a vector.
- `cubic` is modelled for one scalar query xi. The source takes an array of queries, and a single element at or past x[N-1] makes the whole call raise.
- A constant k (dlnk = 0) passes the grid check. numpy's `linspace` then gives a NaN first frequency, where the model gives 0.
- `U`: the tophat kernel is a complex division. The model does not prove that multiplying it back by (4 - x)**2 - 1 returns the numerator.
- Out-of-range `cubic` queries (xi < x[0], which wraps to the last element, or xi > x[N-1]) are excluded by preconditions.
- Numerical accuracy is not modelled: agreement with the analytic mass variance, integration error and the inverse's accuracy between knots.
- The FFT, complex log-gamma, exp, log, angle, `np.allclose` and `np.isclose` are abstract. Nothing is claimed about them beyond output lengths: n//2 + 1 for `rfft` and n for `irfft`.
- `np.linspace` is modelled over exact reals: interior points are m * step, and the last point is the stop value.
- Broadcasting over the leading axes of pk is modelled as a sequence of rows of the last axis, each transformed independently. The order in which numpy visits them is not modelled.
- `np.ndim(k)` and `np.shape(pk)` are inputs; the model does not build multi-dimensional arrays.

## Findings

| source | as written | input that shows it | evidently intended | confidence | as-written member | corrected member |
|---|---|---|---|---|---|---|
| cosmology/_numerical.py:54-57 | `i1 = np.digitize(xi, x)` is N at the last knot xi = x[N-1], so `x[i1]` raises IndexError. `rk23` places its last knot exactly at x1, so `ad(x1)` fails. | x = [0, 1], y = [0, 0.5], yp = [0, 1], xi = 1.0 | the interpolant returns y[N-1] at the last knot | not executed | `Numerical.DigitizeAtLastKnot` | `Numerical.Cubic` |

=== FILE: floats.dfy ===
/** IEEE operations whose edge cases the model leaves abstract, shared by the
    numerical and the structure modules. */
module Floats {

  /** `overZero(a)` is what `a / 0.0` gives (an infinity or a NaN) and
      `pow(b, e)` is `b ** e`. */
  datatype FloatOps = FloatOps(overZero: real -> real, pow: (real, real) -> real)

  /** The only facts about fractional powers the model relies on. */
  ghost predicate PowerLaw(ops: FloatOps) {
    (forall b: real, e: real :: b > 0.0 ==> ops.pow(b, e) > 0.0) &&
    (forall b: real, e: real :: 0.0 < b < 1.0 && e > 0.0 ==> ops.pow(b, e) < 1.0) &&
    (forall e: real :: e > 0.0 ==> ops.pow(0.0, e) == 0.0)
  }

  /** True division `a / b`: exact on a non-zero divisor. */
  function Div(ops: FloatOps, a: real, b: real): (r: real)
    ensures b != 0.0 ==> r * b == a
  {
    if b != 0.0 then a / b else ops.overZero(a)
  }

  /** `np.fabs`. */
  function Abs(v: real): (r: real)
    ensures r >= 0.0 && (r == v || r == -v)
  {
    if v < 0.0 then -v else v
  }
}

=== FILE: numerical.dfy ===
/** Model of cosmology/_numerical.py: the adaptive Bogacki–Shampine 3(2)
    integrator `rk23`, the Hermite cubic interpolation `cubic` and the
    antiderivative builder `antideriv`, over exact reals. */
module Numerical {
  import opened Sequences
  import opened Floats


  // ---------------------------------------------------------------------
  // rk23: Butcher data of the Bogacki–Shampine pair and the step controller
  // ---------------------------------------------------------------------

  // The Bogacki–Shampine tableau: offsets a = [0, 1/2, 3/4, 1], third-order
  // weights c = [2/9, 1/3, 4/9, 0], embedded weights cs = [7/24, 1/4, 1/3, 1/8]
  // and the safety factor S = 0.95 appear as literals in the functions below.

  /** `f(xn + a*h)`: the vectorised call, as four scalar calls. */
  function Stages(f: real -> real, xn: real, h: real): (k: seq<real>)
    ensures |k| == 4 && k[0] == f(xn)
  {
    [f(xn + 0.0 * h), f(xn + 0.5 * h), f(xn + 0.75 * h), f(xn + 1.0 * h)]
  }

  /** D0: the error allowed on a step that starts at value yn. */
  function Tolerance(atol: real, rtol: real, yn: real): real {
    (atol + rtol * Abs(yn)) / 2.0
  }

  /** The estimate `yn + h*(c@k)` of the third-order weights. */
  function HighOrder(yn: real, h: real, k: seq<real>): real
    requires |k| == 4
  {
    yn + h * (2.0 / 9.0 * k[0] + 1.0 / 3.0 * k[1] + 4.0 / 9.0 * k[2] + 0.0 * k[3])
  }

  /** The embedded estimate `yn + h*(cs@k)`, the value the integrator advances to. */
  function Embedded(yn: real, h: real, k: seq<real>): real
    requires |k| == 4
  {
    yn + h * (7.0 / 24.0 * k[0] + 0.25 * k[1] + 1.0 / 3.0 * k[2] + 0.125 * k[3])
  }

  /** D1 of a step of size h from (xn, yn): the difference between the two estimates. */
  function ErrorEstimate(f: real -> real, xn: real, yn: real, h: real): real {
    var k := Stages(f, xn, h);
    Abs(HighOrder(yn, h, k) - Embedded(yn, h, k))
  }

  /** The step after clamping so that a step never overshoots x1. */
  function ClampedStep(xn: real, h: real, x1: real): (r: real)
    ensures r <= h
    ensures xn < x1 ==> xn + r <= x1
    ensures xn < x1 && h > 0.0 ==> r > 0.0
    ensures xn + h <= x1 ==> r == h
  {
    if xn + h > x1 then x1 - xn else h
  }

  /** The new step after an accepted step (D0 >= D1). */
  function GrownStep(ops: FloatOps, h: real, d0: real, d1: real): (r: real)
    ensures d1 == 0.0 ==> r == 2.0 * h
    ensures PowerLaw(ops) && h > 0.0 && d0 >= d1 >= 0.0 ==> r > 0.0
  {
    if d1 > 0.0 then
      var p := ops.pow(Div(ops, d0, d1), 0.20);
      assert PowerLaw(ops) && h > 0.0 && d0 >= d1 ==> 0.95 * h * p > 0.0 by {
        if PowerLaw(ops) && h > 0.0 && d0 >= d1 {
          QuotientPositive(d0, d1);
          SafetyPositive(h, p);
        }
      }
      0.95 * h * p
    else
      2.0 * h
  }

  /** The new step after a rejected step (D0 < D1). */
  function ShrunkStep(ops: FloatOps, h: real, d0: real, d1: real): real {
    0.95 * h * ops.pow(Div(ops, d0, d1), 0.25)
  }

  /** A rejected step with a positive tolerance keeps a positive step positive ... */
  lemma ShrunkStepPositive(ops: FloatOps, h: real, d0: real, d1: real)
    requires PowerLaw(ops) && h > 0.0 && 0.0 < d0 < d1
    ensures ShrunkStep(ops, h, d0, d1) > 0.0
  {
    QuotientBelowOne(d0, d1);
    SafetyPositive(h, ops.pow(Div(ops, d0, d1), 0.25));
  }

  /** A rejected step never makes the step negative; with D0 = 0 it collapses to 0. */
  lemma ShrunkStepNonNegative(ops: FloatOps, h: real, d0: real, d1: real)
    requires PowerLaw(ops) && h > 0.0 && 0.0 <= d0 < d1
    ensures ShrunkStep(ops, h, d0, d1) >= 0.0
    ensures d0 == 0.0 ==> ShrunkStep(ops, h, d0, d1) == 0.0
  {
    QuotientBelowOne(d0, d1);
    var p := ops.pow(Div(ops, d0, d1), 0.25);
    if d0 > 0.0 {
      QuotientPositive(d0, d1);
      SafetyPositive(h, p);
    } else {
      assert Div(ops, d0, d1) == 0.0;
      assert p == 0.0;
    }
  }

  /** A rejected step makes a positive step strictly smaller. */
  lemma ShrunkStepSmaller(ops: FloatOps, h: real, d0: real, d1: real)
    requires PowerLaw(ops) && h > 0.0 && 0.0 <= d0 < d1
    ensures ShrunkStep(ops, h, d0, d1) < h
  {
    QuotientBelowOne(d0, d1);
    var p := ops.pow(Div(ops, d0, d1), 0.25);
    if d0 > 0.0 {
      QuotientPositive(d0, d1);
      SafetyShrinks(h, p);
    } else {
      assert Div(ops, d0, d1) == 0.0;
      assert p == 0.0;
    }
  }

  lemma QuotientPositive(a: real, d: real)
    requires 0.0 < a && 0.0 < d
    ensures a / d > 0.0
  {
    var q := a / d;
    assert q * d == a;
  }


  lemma QuotientBelowOne(a: real, d: real)
    requires 0.0 <= a < d
    ensures 0.0 <= a / d < 1.0
  {
    var q := a / d;
    assert q * d == a;
  }

  lemma ProductBelow(h: real, p: real)
    requires h > 0.0 && 0.0 < p < 1.0
    ensures h * p < h
  {
  }

  lemma SafetyShrinks(h: real, p: real)
    requires h > 0.0 && 0.0 < p < 1.0
    ensures 0.95 * h * p < h
  {
    ProductBelow(h, p);
  }

  lemma SafetyPositive(h: real, p: real)
    requires h > 0.0 && p > 0.0
    ensures 0.95 * h * p > 0.0
  {
  }

  /** Knot arrays: abscissas, values and derivatives, as returned by `rk23`. */
  datatype Knots = Knots(x: seq<real>, y: seq<real>, yp: seq<real>)

  /** One accepted step from (xa, ya) to (xb, yb): D0 >= D1 held, and yb is the embedded estimate. */
  predicate StepAccepted(f: real -> real, atol: real, rtol: real, xa: real, ya: real, xb: real, yb: real) {
    ErrorEstimate(f, xa, ya, xb - xa) <= Tolerance(atol, rtol, ya) &&
    yb == Embedded(ya, xb - xa, Stages(f, xa, xb - xa))
  }

  /** What `rk23` returns: equal-length arrays starting at (x0, y0), every stored
      derivative equal to f at its abscissa, consecutive knots joined by accepted steps. */
  predicate Integrated(f: real -> real, atol: real, rtol: real, x0: real, y0: real, kn: Knots) {
    |kn.x| == |kn.y| == |kn.yp| && |kn.x| >= 1 &&
    kn.x[0] == x0 && kn.y[0] == y0 &&
    (forall i :: 0 <= i < |kn.x| ==> kn.yp[i] == f(kn.x[i])) &&
    (forall i :: 0 <= i < |kn.x| - 1 ==>
       StepAccepted(f, atol, rtol, kn.x[i], kn.y[i], kn.x[i + 1], kn.y[i + 1]))
  }

  /** The hypotheses under which every returned run makes progress: a positive
      initial step and non-negative tolerances (atol = 0 is a pure relative tolerance). */
  ghost predicate Progressive(ops: FloatOps, h: real, atol: real, rtol: real) {
    PowerLaw(ops) && h > 0.0 && atol >= 0.0 && rtol >= 0.0
  }

  /** `rk23(f, x0, x1, y0, h, atol, rtol)`. The source loop need not terminate;
      `fuel` bounds the number of attempted steps and `None` means it ran out. */
  method Rk23(f: real -> real, ops: FloatOps, x0: real, x1: real, y0: real, h0: real,
              atol: real, rtol: real, fuel: nat) returns (res: Option<Knots>)
    ensures res.Some? ==> Integrated(f, atol, rtol, x0, y0, res.value)
    ensures res.Some? && x0 < x1 ==> Last(res.value.x) == x1
    ensures res.Some? && x0 >= x1 ==> res.value == Knots([x0], [y0], [f(x0)])
    ensures res.Some? && Progressive(ops, h0, atol, rtol) ==> StrictlyIncreasing(res.value.x)
  {
    var x, y, yp := [], [], [];
    var xn, yn, h := x0, y0, h0;
    var attempts := fuel;
    while xn < x1
      invariant |x| == |y| == |yp|
      invariant Integrated(f, atol, rtol, x0, y0, Knots(x + [xn], y + [yn], yp + [f(xn)]))
      invariant x0 < x1 ==> xn <= x1
      invariant x0 >= x1 ==> x == [] && xn == x0 && yn == y0
      invariant Progressive(ops, h0, atol, rtol) ==>
                  h >= 0.0 && (h == 0.0 ==> xn < x1) && (h > 0.0 ==> StrictlyIncreasing(x + [xn]))
      decreases attempts
    {
      if attempts == 0 {
        return None;
      }
      attempts := attempts - 1;
      h := ClampedStep(xn, h, x1);
      var k := Stages(f, xn, h);
      var xnp1 := xn + h;
      var ynp1 := HighOrder(yn, h, k);
      var ysnp1 := Embedded(yn, h, k);
      var d0 := Tolerance(atol, rtol, yn);
      var d1 := Abs(ynp1 - ysnp1);
      if d0 >= d1 {
        AcceptedStep(f, atol, rtol, xn, yn, h);
        AppendAcceptedStep(f, atol, rtol, x0, y0, x, y, yp, xn, yn, xnp1, ysnp1);
        if Progressive(ops, h0, atol, rtol) && h > 0.0 {
          AppendIncreasing(x + [xn], xnp1);
        }
        h := GrownStep(ops, h, d0, d1);
        x, y, yp := x + [xn], y + [yn], yp + [k[0]];
        xn, yn := xnp1, ysnp1;
      } else {
        if Progressive(ops, h0, atol, rtol) {
          ToleranceNonNegative(atol, rtol, yn);
          ZeroStepExact(f, xn, yn);
          assert h != 0.0;
          ShrunkStepNonNegative(ops, h, d0, d1);
        }
        h := ShrunkStep(ops, h, d0, d1);
      }
    }
    x, y, yp := x + [xn], y + [yn], yp + [f(xn)];
    res := Some(Knots(x, y, yp));
  }

  /** The loop invariant survives appending the knot of an accepted step. */
  lemma AppendAcceptedStep(f: real -> real, atol: real, rtol: real, x0: real, y0: real,
                           x: seq<real>, y: seq<real>, yp: seq<real>,
                           xn: real, yn: real, xb: real, yb: real)
    requires |x| == |y| == |yp|
    requires Integrated(f, atol, rtol, x0, y0, Knots(x + [xn], y + [yn], yp + [f(xn)]))
    requires StepAccepted(f, atol, rtol, xn, yn, xb, yb)
    ensures Integrated(f, atol, rtol, x0, y0, Knots(x + [xn] + [xb], y + [yn] + [yb], yp + [f(xn)] + [f(xb)]))
  {
    var X, Y := x + [xn] + [xb], y + [yn] + [yb];
    forall i | 0 <= i < |X| - 1
      ensures StepAccepted(f, atol, rtol, X[i], Y[i], X[i + 1], Y[i + 1])
    {
      if i < |x| {
        assert X[i] == (x + [xn])[i] && X[i + 1] == (x + [xn])[i + 1];
        assert Y[i] == (y + [yn])[i] && Y[i + 1] == (y + [yn])[i + 1];
      }
    }
  }

  /** A step whose error estimate is within tolerance joins (xn, yn) to the embedded estimate. */
  lemma AcceptedStep(f: real -> real, atol: real, rtol: real, xn: real, yn: real, h: real)
    requires ErrorEstimate(f, xn, yn, h) <= Tolerance(atol, rtol, yn)
    ensures StepAccepted(f, atol, rtol, xn, yn, xn + h, Embedded(yn, h, Stages(f, xn, h)))
  {
    assert (xn + h) - xn == h;
  }

  lemma AppendIncreasing(s: seq<real>, v: real)
    requires |s| > 0 && StrictlyIncreasing(s) && Last(s) < v
    ensures StrictlyIncreasing(s + [v])
  {
  }

  /** With atol > 0 and rtol >= 0 the tolerance D0 is positive. */
  lemma TolerancePositive(atol: real, rtol: real, yn: real)
    requires atol > 0.0 && rtol >= 0.0
    ensures Tolerance(atol, rtol, yn) > 0.0
  {
    assert rtol * Abs(yn) >= 0.0;
  }

  /** With atol >= 0 and rtol >= 0 the tolerance D0 is never negative. */
  lemma ToleranceNonNegative(atol: real, rtol: real, yn: real)
    requires atol >= 0.0 && rtol >= 0.0
    ensures Tolerance(atol, rtol, yn) >= 0.0
  {
    assert rtol * Abs(yn) >= 0.0;
  }

  /** A step of length 0 has no error: both estimates stay at yn, so it is always accepted. */
  lemma ZeroStepExact(f: real -> real, xn: real, yn: real)
    ensures ErrorEstimate(f, xn, yn, 0.0) == 0.0
    ensures Embedded(yn, 0.0, Stages(f, xn, 0.0)) == yn
  {
  }

  /** A rejected step (D0 < D1) strictly shrinks a positive step, whatever it was clamped to. */
  lemma RejectedStepShrinks(ops: FloatOps, f: real -> real, xn: real, yn: real, h: real,
                            x1: real, atol: real, rtol: real)
    requires Progressive(ops, h, atol, rtol)
    requires xn < x1
    requires Tolerance(atol, rtol, yn) < ErrorEstimate(f, xn, yn, ClampedStep(xn, h, x1))
    ensures ShrunkStep(ops, ClampedStep(xn, h, x1), Tolerance(atol, rtol, yn),
                       ErrorEstimate(f, xn, yn, ClampedStep(xn, h, x1))) < h
  {
    var hc := ClampedStep(xn, h, x1);
    ToleranceNonNegative(atol, rtol, yn);
    ShrunkStepSmaller(ops, hc, Tolerance(atol, rtol, yn), ErrorEstimate(f, xn, yn, hc));
  }

  /** The primitive p*x + s*x^2/2 of the affine integrand p + s*x. */
  function AffinePrimitive(p: real, s: real, x: real): real {
    p * x + s * x * x / 2.0
  }

  /** On an affine integrand both weight sets integrate a step exactly, so the
      estimates agree (D1 = 0, the step is accepted and h doubles). */
  lemma AffineStepExact(f: real -> real, p: real, s: real, xa: real, ya: real, h: real)
    requires forall x :: f(x) == p + s * x
    ensures Embedded(ya, h, Stages(f, xa, h)) == ya + AffinePrimitive(p, s, xa + h) - AffinePrimitive(p, s, xa)
    ensures ErrorEstimate(f, xa, ya, h) == 0.0
  {
    var k := Stages(f, xa, h);
    var u, v := p + s * xa, s * h;
    assert k[0] == u;
    assert k[1] == u + 0.5 * v;
    assert k[2] == u + 0.75 * v;
    assert k[3] == u + v;
    assert 7.0 / 24.0 * k[0] + 0.25 * k[1] + 1.0 / 3.0 * k[2] + 0.125 * k[3] == u + v / 2.0;
    assert 2.0 / 9.0 * k[0] + 1.0 / 3.0 * k[1] + 4.0 / 9.0 * k[2] + 0.0 * k[3] == u + v / 2.0;
    AffinePrimitiveStep(p, s, xa, h);
  }

  lemma AffinePrimitiveStep(p: real, s: real, xa: real, h: real)
    ensures AffinePrimitive(p, s, xa + h) - AffinePrimitive(p, s, xa) == h * (p + s * xa + s * h / 2.0)
  {
    assert (xa + h) * (xa + h) == xa * xa + 2.0 * xa * h + h * h;
  }

  /** For an affine integrand every knot value returned by the integrator is the
      exact antiderivative through (x0, y0). */
  lemma {:induction false} AffineKnotsExact(f: real -> real, p: real, s: real, atol: real, rtol: real,
                                            x0: real, y0: real, kn: Knots, i: nat)
    requires forall x :: f(x) == p + s * x
    requires Integrated(f, atol, rtol, x0, y0, kn)
    requires i < |kn.x|
    ensures kn.y[i] == y0 + AffinePrimitive(p, s, kn.x[i]) - AffinePrimitive(p, s, x0)
  {
    if i > 0 {
      AffineKnotsExact(f, p, s, atol, rtol, x0, y0, kn, i - 1);
      assert StepAccepted(f, atol, rtol, kn.x[i - 1], kn.y[i - 1], kn.x[i], kn.y[i]);
      AffineStepExact(f, p, s, kn.x[i - 1], kn.y[i - 1], kn.x[i] - kn.x[i - 1]);
    }
  }

  // ---------------------------------------------------------------------
  // cubic: bracket search and the Hermite cubic in Horner form
  // ---------------------------------------------------------------------

  /** `np.digitize(xi, x)` for increasing bins: the number of knots at or below xi,
      which is the index of the first knot strictly above xi. */
  function Digitize(xi: real, x: seq<real>): (i: nat)
    ensures i <= |x|
    ensures StrictlyIncreasing(x) ==>
              (forall j :: 0 <= j < i ==> x[j] <= xi) && (forall j :: i <= j < |x| ==> xi < x[j])
  {
    if |x| == 0 then 0 else (if x[0] <= xi then 1 else 0) + Digitize(xi, x[1..])
  }

  function CoeffA(f0: real, f1: real, fp0: real, fp1: real): real {
    2.0 * f0 - 2.0 * f1 + fp0 + fp1
  }

  function CoeffB(f0: real, f1: real, fp0: real, fp1: real): real {
    -3.0 * f0 + 3.0 * f1 - 2.0 * fp0 - fp1
  }

  /** The Hermite cubic at normalised position t, evaluated in Horner form. */
  function Hermite(f0: real, f1: real, fp0: real, fp1: real, t: real): real {
    var a := CoeffA(f0, f1, fp0, fp1);
    var b := CoeffB(f0, f1, fp0, fp1);
    var c := fp0;
    var d := f0;
    ((a * t + b) * t + c) * t + d
  }

  /** d/dt of the Hermite cubic. */
  function HermiteSlope(f0: real, f1: real, fp0: real, fp1: real, t: real): real {
    var a := CoeffA(f0, f1, fp0, fp1);
    var b := CoeffB(f0, f1, fp0, fp1);
    (3.0 * a * t + 2.0 * b) * t + fp0
  }

  /** The Horner form is the power form a t^3 + b t^2 + c t + d. */
  lemma HornerIsPowerForm(f0: real, f1: real, fp0: real, fp1: real, t: real)
    ensures var a, b := CoeffA(f0, f1, fp0, fp1), CoeffB(f0, f1, fp0, fp1);
            Hermite(f0, f1, fp0, fp1, t) == a * t * t * t + b * t * t + fp0 * t + f0
  {
  }

  /** Hermite property: end values f0, f1 and end slopes fp0, fp1 (a+b+c+d = f1, 3a+2b+c = fp1). */
  lemma HermiteEnds(f0: real, f1: real, fp0: real, fp1: real)
    ensures Hermite(f0, f1, fp0, fp1, 0.0) == f0 && Hermite(f0, f1, fp0, fp1, 1.0) == f1
    ensures HermiteSlope(f0, f1, fp0, fp1, 0.0) == fp0 && HermiteSlope(f0, f1, fp0, fp1, 1.0) == fp1
  {
  }

  /** HermiteSlope is the derivative: the remainder of the first-order expansion is quadratic in e. */
  lemma HermiteTaylor(f0: real, f1: real, fp0: real, fp1: real, t: real, e: real)
    ensures var a, b := CoeffA(f0, f1, fp0, fp1), CoeffB(f0, f1, fp0, fp1);
            Hermite(f0, f1, fp0, fp1, t + e)
              == Hermite(f0, f1, fp0, fp1, t) + e * HermiteSlope(f0, f1, fp0, fp1, t)
                 + e * e * (b + 3.0 * a * t + a * e)
  {
    var a, b := CoeffA(f0, f1, fp0, fp1), CoeffB(f0, f1, fp0, fp1);
    HornerIsPowerForm(f0, f1, fp0, fp1, t);
    HornerIsPowerForm(f0, f1, fp0, fp1, t + e);
    assert (t + e) * (t + e) == t * t + 2.0 * t * e + e * e;
    assert (t + e) * (t + e) * (t + e) == t * t * t + 3.0 * t * t * e + 3.0 * t * e * e + e * e * e;
  }

  /** One segment of the interpolant on [xa, xb], in the query coordinate xi. */
  function Segment(xa: real, xb: real, fa: real, fb: real, da: real, db: real, xi: real): real
    requires xa < xb
  {
    var dx := xb - xa;
    Hermite(fa, fb, dx * da, dx * db, (xi - xa) / dx)
  }

  /** d/dxi of the segment. */
  function SegmentSlope(xa: real, xb: real, fa: real, fb: real, da: real, db: real, xi: real): real
    requires xa < xb
  {
    var dx := xb - xa;
    HermiteSlope(fa, fb, dx * da, dx * db, (xi - xa) / dx) / dx
  }

  /** Each segment matches the knot values and the knot derivatives at both of its ends. */
  lemma SegmentHermite(xa: real, xb: real, fa: real, fb: real, da: real, db: real)
    requires xa < xb
    ensures Segment(xa, xb, fa, fb, da, db, xa) == fa
    ensures Segment(xa, xb, fa, fb, da, db, xb) == fb
    ensures SegmentSlope(xa, xb, fa, fb, da, db, xa) == da
    ensures SegmentSlope(xa, xb, fa, fb, da, db, xb) == db
  {
    var dx := xb - xa;
    assert (xa - xa) / dx == 0.0;
    assert (xb - xa) / dx == 1.0;
    HermiteEnds(fa, fb, dx * da, dx * db);
  }

  /** SegmentSlope is the derivative of Segment with respect to xi. */
  lemma SegmentTaylor(xa: real, xb: real, fa: real, fb: real, da: real, db: real, xi: real, e: real)
    requires xa < xb
    ensures var dx := xb - xa;
            var t, s := (xi - xa) / dx, e / dx;
            var a, b := CoeffA(fa, fb, dx * da, dx * db), CoeffB(fa, fb, dx * da, dx * db);
            Segment(xa, xb, fa, fb, da, db, xi + e)
              == Segment(xa, xb, fa, fb, da, db, xi) + e * SegmentSlope(xa, xb, fa, fb, da, db, xi)
                 + s * s * (b + 3.0 * a * t + a * s)
  {
    var dx := xb - xa;
    var t, s := (xi - xa) / dx, e / dx;
    assert (xi + e - xa) / dx == t + s;
    HermiteTaylor(fa, fb, dx * da, dx * db, t, s);
    var hs := HermiteSlope(fa, fb, dx * da, dx * db, t);
    assert s * hs == e * (hs / dx);
  }

  /** Knot arrays that `cubic` can interpolate: equal lengths, two knots at least, increasing abscissas. */
  predicate Interpolable(x: seq<real>, y: seq<real>, yp: seq<real>) {
    |x| == |y| == |yp| && |x| >= 2 && StrictlyIncreasing(x)
  }

  /** The bracket of a query in [x[0], x[N-1]): i0 = i1 - 1 and 0 <= t < 1. */
  lemma BracketInRange(xi: real, x: seq<real>)
    requires |x| >= 2 && StrictlyIncreasing(x)
    requires x[0] <= xi < Last(x)
    ensures var i1 := Digitize(xi, x);
            0 <= i1 - 1 < i1 <= |x| - 1 && x[i1 - 1] <= xi < x[i1] &&
            0.0 <= (xi - x[i1 - 1]) / (x[i1] - x[i1 - 1]) < 1.0
  {
    var i1 := Digitize(xi, x);
    QuotientBelowOne(xi - x[i1 - 1], x[i1] - x[i1 - 1]);
  }

  /** `cubic(xi, x, y, yp)` as written, on the queries where it reads only valid indices. */
  function CubicAsWritten(xi: real, x: seq<real>, y: seq<real>, yp: seq<real>): (v: real)
    requires Interpolable(x, y, yp)
    requires x[0] <= xi < Last(x)
    ensures forall j :: 0 <= j < |x| - 1 && x[j] <= xi < x[j + 1] ==>
              v == Segment(x[j], x[j + 1], y[j], y[j + 1], yp[j], yp[j + 1], xi)
  {
    var i1 := Digitize(xi, x);
    BracketInRange(xi, x);
    BracketUnique(xi, x);
    var i0 := i1 - 1;
    Segment(x[i0], x[i1], y[i0], y[i1], yp[i0], yp[i1], xi)
  }

  /** Over increasing knots at most one segment [x[j], x[j+1]) holds xi: the one
      ending at the digitize index. */
  lemma BracketUnique(xi: real, x: seq<real>)
    requires StrictlyIncreasing(x)
    ensures forall j :: 0 <= j < |x| - 1 && x[j] <= xi < x[j + 1] ==> j == Digitize(xi, x) - 1
  {
  }

  /** At the last knot the bracket search returns N, one past the end of the arrays. */
  lemma DigitizeAtLastKnot(x: seq<real>)
    requires |x| >= 1 && StrictlyIncreasing(x)
    ensures Digitize(Last(x), x) == |x|
  {
  }

  /** The interpolant with the bracket index clamped to N-1, so that the last knot,
      which `rk23` places exactly at the end of the range, can be queried too. */
  function Cubic(xi: real, x: seq<real>, y: seq<real>, yp: seq<real>): (v: real)
    requires Interpolable(x, y, yp)
    requires x[0] <= xi <= Last(x)
    ensures forall j :: 0 <= j < |x| - 1 && x[j] <= xi < x[j + 1] ==>
              v == Segment(x[j], x[j + 1], y[j], y[j + 1], yp[j], yp[j + 1], xi)
    ensures xi == Last(x) ==> v == Last(y)
  {
    var i1 := if Digitize(xi, x) < |x| then Digitize(xi, x) else |x| - 1;
    var i0 := i1 - 1;
    BracketUnique(xi, x);
    SegmentHermite(x[i0], x[i1], y[i0], y[i1], yp[i0], yp[i1]);
    Segment(x[i0], x[i1], y[i0], y[i1], yp[i0], yp[i1], xi)
  }

  /** Below the last knot the corrected interpolant is the source's. */
  lemma CubicAgreesBelowLastKnot(xi: real, x: seq<real>, y: seq<real>, yp: seq<real>)
    requires Interpolable(x, y, yp)
    requires x[0] <= xi < Last(x)
    ensures Cubic(xi, x, y, yp) == CubicAsWritten(xi, x, y, yp)
  {
    BracketInRange(xi, x);
  }

  /** Querying a knot abscissa returns the knot value exactly, for every knot. */
  lemma CubicAtKnot(x: seq<real>, y: seq<real>, yp: seq<real>, j: nat)
    requires Interpolable(x, y, yp)
    requires j < |x|
    ensures Cubic(x[j], x, y, yp) == y[j]
  {
    if j < |x| - 1 {
      SegmentHermite(x[j], x[j + 1], y[j], y[j + 1], yp[j], yp[j + 1]);
    }
  }

  /** Adjacent segments meet at each interior knot with the knot's value and derivative. */
  lemma SegmentsJoinSmoothly(x: seq<real>, y: seq<real>, yp: seq<real>, j: nat)
    requires Interpolable(x, y, yp)
    requires 0 < j < |x| - 1
    ensures Segment(x[j - 1], x[j], y[j - 1], y[j], yp[j - 1], yp[j], x[j])
            == Cubic(x[j], x, y, yp) == y[j]
    ensures SegmentSlope(x[j - 1], x[j], y[j - 1], y[j], yp[j - 1], yp[j], x[j])
            == SegmentSlope(x[j], x[j + 1], y[j], y[j + 1], yp[j], yp[j + 1], x[j]) == yp[j]
  {
    SegmentHermite(x[j - 1], x[j], y[j - 1], y[j], yp[j - 1], yp[j]);
    SegmentHermite(x[j], x[j + 1], y[j], y[j + 1], yp[j], yp[j + 1]);
    CubicAtKnot(x, y, yp, j);
  }

  // ---------------------------------------------------------------------
  // antideriv: the integration and the inverse construction
  // ---------------------------------------------------------------------

  datatype AdError =
    | NotInvertible   // ValueError('antiderivative not invertible')
    | OutOfFuel       // the integration loop did not finish within its step budget

  /** `1/yp` elementwise. */
  function Reciprocals(ops: FloatOps, s: seq<real>): (r: seq<real>)
    ensures |r| == |s|
    ensures forall i :: 0 <= i < |s| ==> r[i] == Div(ops, 1.0, s[i])
  {
    seq(|s|, i requires 0 <= i < |s| => Div(ops, 1.0, s[i]))
  }

  /** The knot arrays of the inverse: roles of x and y swapped, reciprocal derivatives,
      reversed when y decreases; an error unless y is strictly monotone. */
  function InverseKnots(ops: FloatOps, x: seq<real>, y: seq<real>, yp: seq<real>): (r: Result<Knots, AdError>)
    requires |x| == |y| == |yp|
    ensures r.Ok? <==> StrictlyIncreasing(y) || StrictlyDecreasing(y)
    ensures r.Err? ==> r.error == NotInvertible
    ensures r.Ok? ==> |r.value.x| == |r.value.y| == |r.value.yp| == |y| && StrictlyIncreasing(r.value.x)
    ensures r.Ok? ==> forall i :: 0 <= i < |y| ==>
              var j := if StrictlyIncreasing(y) then i else |y| - 1 - i;
              r.value.x[i] == y[j] && r.value.y[i] == x[j] && r.value.yp[i] == Div(ops, 1.0, yp[j])
  {
    var dy := Diff(y);
    PositiveDiffIffIncreasing(y);
    NegativeDiffIffDecreasing(y);
    if AllPositive(dy) then
      Ok(Knots(y, x, Reciprocals(ops, yp)))
    else if AllNegative(dy) then
      ReversedDecreasingIncreases(y);
      ReversedIndexes(y);
      ReversedIndexes(x);
      ReversedIndexes(yp);
      Ok(Knots(Reversed(y), Reversed(x), Reciprocals(ops, Reversed(yp))))
    else
      Err(NotInvertible)
  }

  /** An increasing y is inverted without reordering. */
  lemma InverseOfIncreasing(ops: FloatOps, x: seq<real>, y: seq<real>, yp: seq<real>)
    requires |x| == |y| == |yp| && StrictlyIncreasing(y)
    ensures InverseKnots(ops, x, y, yp) == Ok(Knots(y, x, Reciprocals(ops, yp)))
  {
    PositiveDiffIffIncreasing(y);
  }

  /** A decreasing (and not increasing) y is inverted with all three arrays reversed. */
  lemma InverseOfDecreasing(ops: FloatOps, x: seq<real>, y: seq<real>, yp: seq<real>)
    requires |x| == |y| == |yp| && StrictlyDecreasing(y) && !StrictlyIncreasing(y)
    ensures InverseKnots(ops, x, y, yp) == Ok(Knots(Reversed(y), Reversed(x), Reciprocals(ops, Reversed(yp))))
  {
    PositiveDiffIffIncreasing(y);
    NegativeDiffIffDecreasing(y);
  }

  /** `1/(1/s)` is s when no entry is zero. */
  lemma ReciprocalsTwice(ops: FloatOps, s: seq<real>)
    requires forall i :: 0 <= i < |s| ==> s[i] != 0.0
    ensures Reciprocals(ops, Reciprocals(ops, s)) == s
  {
    var r := Reciprocals(ops, s);
    forall i | 0 <= i < |s| ensures Div(ops, 1.0, r[i]) == s[i] {
      assert r[i] == 1.0 / s[i];
    }
  }

  lemma ReciprocalsReversed(ops: FloatOps, s: seq<real>)
    ensures Reciprocals(ops, Reversed(s)) == Reversed(Reciprocals(ops, s))
  {
    ReversedIndexes(s);
    ReversedIndexes(Reciprocals(ops, s));
  }

  /** Inverting the inverse gives back the knots of an increasing antiderivative
      whose derivatives are all non-zero. */
  lemma InverseTwice(ops: FloatOps, x: seq<real>, y: seq<real>, yp: seq<real>)
    requires |x| == |y| == |yp| && StrictlyIncreasing(x)
    requires forall i :: 0 <= i < |yp| ==> yp[i] != 0.0
    requires InverseKnots(ops, x, y, yp).Ok?
    ensures var inv := InverseKnots(ops, x, y, yp).value;
            InverseKnots(ops, inv.x, inv.y, inv.yp) == Ok(Knots(x, y, yp))
  {
    if StrictlyIncreasing(y) {
      InverseOfIncreasing(ops, x, y, yp);
      InverseTwiceIncreasing(ops, x, y, yp);
    } else {
      InverseOfDecreasing(ops, x, y, yp);
      InverseTwiceDecreasing(ops, x, y, yp);
    }
  }

  lemma InverseTwiceIncreasing(ops: FloatOps, x: seq<real>, y: seq<real>, yp: seq<real>)
    requires |x| == |y| == |yp| && StrictlyIncreasing(x) && StrictlyIncreasing(y)
    requires forall i :: 0 <= i < |yp| ==> yp[i] != 0.0
    ensures InverseKnots(ops, y, x, Reciprocals(ops, yp)) == Ok(Knots(x, y, yp))
  {
    InverseOfIncreasing(ops, y, x, Reciprocals(ops, yp));
    ReciprocalsTwice(ops, yp);
  }

  lemma InverseTwiceDecreasing(ops: FloatOps, x: seq<real>, y: seq<real>, yp: seq<real>)
    requires |x| == |y| == |yp| && StrictlyIncreasing(x) && StrictlyDecreasing(y) && !StrictlyIncreasing(y)
    requires forall i :: 0 <= i < |yp| ==> yp[i] != 0.0
    ensures InverseKnots(ops, Reversed(y), Reversed(x), Reciprocals(ops, Reversed(yp))) == Ok(Knots(x, y, yp))
  {
    var rx, ryp := Reversed(x), Reversed(yp);
    assert |x| >= 2;
    ReversedIncreasingDecreases(x);
    assert rx[0] > rx[1];
    InverseOfDecreasing(ops, Reversed(y), rx, Reciprocals(ops, ryp));
    ReversedTwice(x);
    ReversedTwice(y);
    ReciprocalsOfReversedTwice(ops, yp);
  }

  lemma ReciprocalsOfReversedTwice(ops: FloatOps, s: seq<real>)
    requires forall i :: 0 <= i < |s| ==> s[i] != 0.0
    ensures Reciprocals(ops, Reversed(Reciprocals(ops, Reversed(s)))) == s
  {
    var rs := Reversed(s);
    ReversedIndexes(s);
    ReciprocalsReversed(ops, Reciprocals(ops, rs));
    ReciprocalsTwice(ops, rs);
    ReversedTwice(s);
  }

  /** The antiderivative, and its inverse when asked for (`partial(cubic, ...)` is
      represented by the knot arrays it closes over). */
  datatype Antiderivative = Plain(ad: Knots) | WithInverse(ad: Knots, adInv: Knots)

  /** The antiderivative's value at x0 is the integration constant c. */
  lemma AntiderivativeStartsAtC(f: real -> real, atol: real, rtol: real, x0: real, c: real, kn: Knots)
    requires Integrated(f, atol, rtol, x0, c, kn)
    requires Interpolable(kn.x, kn.y, kn.yp)
    ensures Cubic(x0, kn.x, kn.y, kn.yp) == c
  {
    CubicAtKnot(kn.x, kn.y, kn.yp, 0);
  }

  /** `antideriv(f, x0, x1, h, c=c, atol=atol, rtol=rtol, inverse=inverse)`. */
  method Antideriv(f: real -> real, ops: FloatOps, x0: real, x1: real, h: real, c: real,
                   atol: real, rtol: real, inverse: bool, fuel: nat)
    returns (res: Result<Antiderivative, AdError>)
    ensures res.Ok? ==> (res.value.Plain? <==> !inverse)
    ensures res.Ok? ==> Integrated(f, atol, rtol, x0, c, res.value.ad)
    ensures res.Ok? && x0 < x1 ==> Last(res.value.ad.x) == x1
    ensures res.Ok? && Interpolable(res.value.ad.x, res.value.ad.y, res.value.ad.yp) ==>
              Cubic(x0, res.value.ad.x, res.value.ad.y, res.value.ad.yp) == c
    ensures res.Ok? && res.value.WithInverse? ==>
              InverseKnots(ops, res.value.ad.x, res.value.ad.y, res.value.ad.yp) == Ok(res.value.adInv)
    ensures res.Err? && res.error == NotInvertible ==> inverse
    ensures res.Err? && res.error == NotInvertible ==>
              exists kn :: Integrated(f, atol, rtol, x0, c, kn) &&
                           (x0 < x1 ==> Last(kn.x) == x1) &&
                           (x0 >= x1 ==> kn == Knots([x0], [c], [f(x0)])) &&
                           (Progressive(ops, h, atol, rtol) ==> StrictlyIncreasing(kn.x)) &&
                           !StrictlyIncreasing(kn.y) && !StrictlyDecreasing(kn.y)
  {
    var run := Rk23(f, ops, x0, x1, c, h, atol, rtol, fuel);
    if run.None? {
      return Err(OutOfFuel);
    }
    var kn := run.value;
    if Interpolable(kn.x, kn.y, kn.yp) {
      AntiderivativeStartsAtC(f, atol, rtol, x0, c, kn);
    }
    if !inverse {
      return Ok(Plain(kn));
    }
    var inv := InverseKnots(ops, kn.x, kn.y, kn.yp);
    if inv.Err? {
      assert Integrated(f, atol, rtol, x0, c, kn);
      assert (x0 < x1 ==> Last(kn.x) == x1) && (x0 >= x1 ==> kn == Knots([x0], [c], [f(x0)]));
      assert Progressive(ops, h, atol, rtol) ==> StrictlyIncreasing(kn.x);
      return Err(inv.error);
    }
    res := Ok(WithInverse(kn, inv.value));
  }
}

=== FILE: sequences.dfy ===
/** Small sequence vocabulary shared by the numerical and the structure modules:
    Option/Result wrappers, numpy's `np.diff` and `a[::-1]`, and the two
    monotonicity notions the source tests through `np.all(np.diff(y) > 0)`. */
module Sequences {

  datatype Option<T> = None | Some(value: T)

  datatype Result<T, E> = Ok(value: T) | Err(error: E)

  function Last<T>(s: seq<T>): T
    requires |s| > 0
  {
    s[|s| - 1]
  }

  /** `s[::-1]`, built from the back. */
  function Reversed<T>(s: seq<T>): (r: seq<T>)
    ensures |r| == |s|
  {
    if |s| == 0 then [] else [s[|s| - 1]] + Reversed(s[..|s| - 1])
  }

  lemma {:induction false} ReversedAt<T>(s: seq<T>, i: int)
    requires 0 <= i < |s|
    ensures Reversed(s)[i] == s[|s| - 1 - i]
  {
    if i > 0 {
      ReversedAt(s[..|s| - 1], i - 1);
    }
  }

  lemma ReversedIndexes<T>(s: seq<T>)
    ensures forall i :: 0 <= i < |s| ==> Reversed(s)[i] == s[|s| - 1 - i]
  {
    forall i | 0 <= i < |s| ensures Reversed(s)[i] == s[|s| - 1 - i] {
      ReversedAt(s, i);
    }
  }

  /** Reversing twice gives back the original sequence. */
  lemma ReversedTwice<T>(s: seq<T>)
    ensures Reversed(Reversed(s)) == s
  {
    ReversedIndexes(s);
    ReversedIndexes(Reversed(s));
  }

  /** `np.diff(s)`: the consecutive differences. */
  function Diff(s: seq<real>): (d: seq<real>)
    ensures |s| > 0 ==> |d| == |s| - 1
    ensures |s| == 0 ==> d == []
  {
    if |s| <= 1 then [] else seq(|s| - 1, i requires 0 <= i < |s| - 1 => s[i + 1] - s[i])
  }

  predicate AllPositive(d: seq<real>) {
    forall i :: 0 <= i < |d| ==> d[i] > 0.0
  }

  predicate AllNegative(d: seq<real>) {
    forall i :: 0 <= i < |d| ==> d[i] < 0.0
  }

  predicate StrictlyIncreasing(s: seq<real>) {
    forall i, j :: 0 <= i < j < |s| ==> s[i] < s[j]
  }

  predicate StrictlyDecreasing(s: seq<real>) {
    forall i, j :: 0 <= i < j < |s| ==> s[i] > s[j]
  }

  /** Positive consecutive differences are exactly strict increase over all pairs. */
  lemma {:induction false} PositiveDiffIffIncreasing(s: seq<real>)
    ensures AllPositive(Diff(s)) <==> StrictlyIncreasing(s)
  {
    if AllPositive(Diff(s)) {
      forall i, j | 0 <= i < j < |s| ensures s[i] < s[j] {
        StepwiseIncrease(s, i, j);
      }
    }
  }

  lemma {:induction false} StepwiseIncrease(s: seq<real>, i: int, j: int)
    requires AllPositive(Diff(s))
    requires 0 <= i < j < |s|
    ensures s[i] < s[j]
    decreases j - i
  {
    assert Diff(s)[j - 1] == s[j] - s[j - 1];
    if i < j - 1 {
      StepwiseIncrease(s, i, j - 1);
    }
  }

  /** Negative consecutive differences are exactly strict decrease over all pairs. */
  lemma {:induction false} NegativeDiffIffDecreasing(s: seq<real>)
    ensures AllNegative(Diff(s)) <==> StrictlyDecreasing(s)
  {
    if AllNegative(Diff(s)) {
      forall i, j | 0 <= i < j < |s| ensures s[i] > s[j] {
        StepwiseDecrease(s, i, j);
      }
    }
  }

  lemma {:induction false} StepwiseDecrease(s: seq<real>, i: int, j: int)
    requires AllNegative(Diff(s))
    requires 0 <= i < j < |s|
    ensures s[i] > s[j]
    decreases j - i
  {
    assert Diff(s)[j - 1] == s[j] - s[j - 1];
    if i < j - 1 {
      StepwiseDecrease(s, i, j - 1);
    }
  }

  /** Reversal turns a strictly decreasing sequence into a strictly increasing one. */
  lemma ReversedDecreasingIncreases(s: seq<real>)
    requires StrictlyDecreasing(s)
    ensures StrictlyIncreasing(Reversed(s))
  {
    ReversedIndexes(s);
  }

  lemma ReversedIncreasingDecreases(s: seq<real>)
    requires StrictlyIncreasing(s)
    ensures StrictlyDecreasing(Reversed(s))
  {
    ReversedIndexes(s);
  }
}

=== FILE: structure.dfy ===
/** Model of `sigma2_r` in cosmology/_structure.py: the mass variance of a
    matter power spectrum by a biased FFTLog transform. The input checks, the
    low-ringing adjustment of kr, the coefficient array, the output grid and
    the in-place result assembly are modelled over exact reals; the FFT, complex
    log-gamma, exp, log, angle and the float-tolerance comparisons are
    parameters. */
module Structure {
  import opened Sequences
  import opened Floats

  // ---------------------------------------------------------------------
  // Complex numbers, exactly as far as the model needs them
  // ---------------------------------------------------------------------

  datatype Complex = Complex(re: real, im: real)

  const Zero := Complex(0.0, 0.0)

  function CAdd(a: Complex, b: Complex): Complex {
    Complex(a.re + b.re, a.im + b.im)
  }

  function CSub(a: Complex, b: Complex): Complex {
    Complex(a.re - b.re, a.im - b.im)
  }

  function CMul(a: Complex, b: Complex): Complex {
    Complex(a.re * b.re - a.im * b.im, a.re * b.im + a.im * b.re)
  }

  function CScale(s: real, a: Complex): Complex {
    Complex(s * a.re, s * a.im)
  }

  /** Complex true division; division by zero is left to `overZero`, part by part. */
  function CDiv(ops: FloatOps, a: Complex, b: Complex): Complex {
    if b != Zero then
      var d := b.re * b.re + b.im * b.im;
      Complex(Div(ops, a.re * b.re + a.im * b.im, d), Div(ops, a.im * b.re - a.re * b.im, d))
    else
      Complex(ops.overZero(a.re), ops.overZero(a.im))
  }

  /** Complex multiplication is associative: multiplying in place by u and then by
      a second factor is multiplying once by their product. */
  lemma CMulAssociative(a: Complex, b: Complex, c: Complex)
    ensures CMul(CMul(a, b), c) == CMul(a, CMul(b, c))
  {
  }

  /** Elementwise product, numpy's `cm * u` on equal shapes. */
  function Products(a: seq<Complex>, b: seq<Complex>): (r: seq<Complex>)
    requires |a| == |b|
    ensures |r| == |a|
    ensures forall i :: 0 <= i < |a| ==> r[i] == CMul(a[i], b[i])
  {
    seq(|a|, i requires 0 <= i < |a| => CMul(a[i], b[i]))
  }

  // ---------------------------------------------------------------------
  // Abstract numerics
  // ---------------------------------------------------------------------

  /** The special functions and transforms the model does not open:
      `rfft(s, m)` is coefficient m of `np.fft.rfft(s)`, `irfft(c, n, j)` entry j
      of `np.fft.irfft(c, n)`, `allclose(a, b)` is `np.allclose(a, b)` and
      `isclose0(v)` is `np.isclose(v, 0)`. */
  datatype Numerics = Numerics(
    fl: FloatOps,
    log: real -> real,
    exp: real -> real,
    cexp: Complex -> Complex,
    loggamma: Complex -> Complex,
    angle: Complex -> real,
    allclose: (seq<real>, seq<real>) -> bool,
    isclose0: real -> bool,
    rfft: (seq<real>, nat) -> Complex,
    irfft: (seq<Complex>, nat, nat) -> real)

  /** `np.fft.rfft` of a row of n samples has n//2 + 1 coefficients. */
  function Rfft(nm: Numerics, s: seq<real>): (c: seq<Complex>)
    ensures |c| == |s| / 2 + 1
  {
    seq(|s| / 2 + 1, m requires 0 <= m => nm.rfft(s, m))
  }

  /** `np.fft.irfft(c, n)` has n samples. */
  function Irfft(nm: Numerics, c: seq<Complex>, n: nat): (s: seq<real>)
    ensures |s| == n
  {
    seq(n, j requires 0 <= j => nm.irfft(c, n, j))
  }

  // The constants PI = np.pi and SRPI = PI**0.5 appear as literals below.

  // ---------------------------------------------------------------------
  // Input validation
  // ---------------------------------------------------------------------

  datatype Window = Tophat | Gaussian

  datatype Error =
    | KNotOneDimensional      // TypeError
    | PkHasNoAxis             // IndexError: np.shape(pk)[-1] of a 0-d pk
    | PkAxisMismatch          // TypeError
    | KEmpty                  // IndexError: k[0] of an empty k
    | NotLogGrid              // ValueError
    | TophatBias              // ValueError
    | GaussianBias            // ValueError
    | UnknownWindow(name: string)  // ValueError
    | NoLowRinging            // ValueError

  function ErrorClass(e: Error): string {
    match e
    case KNotOneDimensional | PkAxisMismatch => "TypeError"
    case PkHasNoAxis | KEmpty => "IndexError"
    case _ => "ValueError"
  }

  function Message(e: Error): string {
    match e
    case KNotOneDimensional => "k must be 1d array"
    case PkHasNoAxis => "tuple index out of range"
    case PkAxisMismatch => "last axis of pk must agree with size of k"
    case KEmpty => "index 0 is out of bounds for axis 0 with size 0"
    case NotLogGrid => "k array not a logarithmic grid"
    case TophatBias => "bias error: tophat window requires -1 < q < 3"
    case GaussianBias => "bias error: gaussian window requires q > -1"
    case UnknownWindow(name) => "unknown window function: " + name
    case NoLowRinging =>
      "unable to construct low-ringing transform, try odd number of points or different q"
  }

  /** The unknown-window message carries the rejected name: two different names
      never raise the same text. */
  lemma UnknownWindowMessageNamesWindow(a: string, b: string)
    requires Message(UnknownWindow(a)) == Message(UnknownWindow(b))
    ensures a == b
  {
    var prefix := "unknown window function: ";
    assert a == Message(UnknownWindow(a))[|prefix|..];
    assert b == Message(UnknownWindow(b))[|prefix|..];
  }

  /** The window name and bias check. */
  function CheckWindow(window: string, q: real): (r: Result<Window, Error>)
    ensures r.Ok? <==> (window == "tophat" && -1.0 < q < 3.0) || (window == "gaussian" && q > -1.0)
    ensures r.Ok? ==> (r.value == Tophat <==> window == "tophat")
    ensures r.Err? ==> ErrorClass(r.error) == "ValueError"
    ensures window == "tophat" && !(-1.0 < q < 3.0) ==> r == Err(TophatBias)
    ensures window == "gaussian" && !(q > -1.0) ==> r == Err(GaussianBias)
    ensures window != "tophat" && window != "gaussian" ==> r == Err(UnknownWindow(window))
  {
    if window == "tophat" then
      if !(-1.0 < q < 3.0) then Err(TophatBias) else Ok(Tophat)
    else if window == "gaussian" then
      if !(q > -1.0) then Err(GaussianBias) else Ok(Gaussian)
    else
      Err(UnknownWindow(window))
  }

  /** The exponent `lnkc + (j - jc)*dlnk` of grid point j of the reference grid. */
  function GridExponent(lnk1: real, lnkn: real, n: nat, j: int): real
    requires n >= 2
  {
    var lnkc := (lnk1 + lnkn) / 2.0;
    var dlnk := (lnkn - lnk1) / (n - 1) as real;
    var jc := (n - 1) as real / 2.0;
    lnkc + (j as real - jc) * dlnk
  }

  /** The reference grid runs from log k[0] to log k[n-1] in equal steps of dlnk. */
  lemma GridExponentSpacing(lnk1: real, lnkn: real, n: nat, j: int)
    requires n >= 2
    ensures GridExponent(lnk1, lnkn, n, 0) == lnk1
    ensures GridExponent(lnk1, lnkn, n, n - 1) == lnkn
    ensures GridExponent(lnk1, lnkn, n, j + 1) - GridExponent(lnk1, lnkn, n, j)
            == (lnkn - lnk1) / (n - 1) as real
  {
    var dlnk := (lnkn - lnk1) / (n - 1) as real;
    var jc := (n - 1) as real / 2.0;
    assert jc * dlnk == (lnkn - lnk1) / 2.0 by {
      assert dlnk * (n - 1) as real == lnkn - lnk1;
    }
    assert (j + 1) as real - jc == (j as real - jc) + 1.0;
  }

  /** `np.exp(lnkc + (j-jc)*dlnk)` for j = 0..n-1. */
  function LogGrid(nm: Numerics, k: seq<real>): (g: seq<real>)
    requires |k| >= 2
    ensures |g| == |k|
  {
    var lnk1, lnkn := nm.log(k[0]), nm.log(k[|k| - 1]);
    seq(|k|, j => nm.exp(GridExponent(lnk1, lnkn, |k|, j)))
  }

  /** What the checks establish: the number of points, the log spacing and the window. */
  datatype Grid = Grid(n: nat, dlnk: real, window: Window)

  /** The checks run in source order: the two shape checks
      (TypeError; the 0-d pk falls out as an IndexError on `np.shape(pk)[-1]`),
      then `k[0]` (IndexError on an empty k), then the grid check, then window and
      bias. With a single point `dlnk` is 0/0, a NaN, and no grid is close to it. */
  function Validate(nm: Numerics, k: seq<real>, kNdim: nat, pkShape: seq<nat>,
                    q: real, window: string): (r: Result<Grid, Error>)
    ensures kNdim != 1 ==> r == Err(KNotOneDimensional)
    ensures kNdim == 1 && |pkShape| == 0 ==> r == Err(PkHasNoAxis)
    ensures kNdim == 1 && |pkShape| > 0 && Last(pkShape) != |k| ==> r == Err(PkAxisMismatch)
    ensures r.Err? && ErrorClass(r.error) == "TypeError" ==> kNdim != 1 || Last(pkShape) != |k|
    ensures r.Ok? <==> kNdim == 1 && |pkShape| > 0 && Last(pkShape) == |k| && |k| >= 2 &&
                       nm.allclose(k, LogGrid(nm, k)) && CheckWindow(window, q).Ok?
    ensures r.Ok? ==> r.value.n == |k| && r.value.window == CheckWindow(window, q).value
    ensures kNdim == 1 && |pkShape| > 0 && Last(pkShape) == |k| && |k| == 0 ==> r == Err(KEmpty)
    ensures (kNdim == 1 && |pkShape| > 0 && Last(pkShape) == |k| && |k| >= 1 &&
             (|k| == 1 || !nm.allclose(k, LogGrid(nm, k)))) ==> r == Err(NotLogGrid)
    ensures (r.Err? && kNdim == 1 && |pkShape| > 0 && Last(pkShape) == |k| && |k| >= 2 &&
             nm.allclose(k, LogGrid(nm, k))) ==> r == Err(CheckWindow(window, q).error)
    ensures r.Ok? ==> r.value.dlnk == (nm.log(k[|k| - 1]) - nm.log(k[0])) / (|k| - 1) as real
  {
    if kNdim != 1 then Err(KNotOneDimensional)
    else if |pkShape| == 0 then Err(PkHasNoAxis)
    else if Last(pkShape) != |k| then Err(PkAxisMismatch)
    else if |k| == 0 then Err(KEmpty)
    else if |k| == 1 then Err(NotLogGrid)
    else if !nm.allclose(k, LogGrid(nm, k)) then Err(NotLogGrid)
    else
      var w := CheckWindow(window, q);
      if w.Err? then Err(w.error)
      else
        var n := |k|;
        var dlnk := (nm.log(k[n - 1]) - nm.log(k[0])) / (n - 1) as real;
        Ok(Grid(n, dlnk, w.value))
  }

  // ---------------------------------------------------------------------
  // The kernel U(x) and its poles
  // ---------------------------------------------------------------------

  /** The argument (1 + x)/2 of the log-gamma in the numerator, for both windows. */
  function UpperArgument(x: Complex): Complex {
    CScale(0.5, CAdd(Complex(1.0, 0.0), x))
  }

  /** The argument (4 - x)/2 of the log-gamma in the tophat denominator. */
  function LowerArgument(x: Complex): Complex {
    CScale(0.5, CSub(Complex(4.0, 0.0), x))
  }

  /** (4 - x)**2 - 1, the rational factor of the tophat U. */
  function TophatDenominator(x: Complex): Complex {
    var d := CSub(Complex(4.0, 0.0), x);
    CSub(CMul(d, d), Complex(1.0, 0.0))
  }

  /** U(x) of the window: `9*SRPI*exp(dlg)/((4-x)**2 - 1)` or `exp(loggamma((x+1)/2))/2`. */
  function U(nm: Numerics, w: Window, x: Complex): Complex {
    match w
    case Tophat =>
      var dlg := CSub(nm.loggamma(UpperArgument(x)), nm.loggamma(LowerArgument(x)));
      CDiv(nm.fl, CScale(9.0 * 1.7724538509055159, nm.cexp(dlg)), TophatDenominator(x))
    case Gaussian =>
      CScale(0.5, nm.cexp(nm.loggamma(UpperArgument(x))))
  }

  /** A bias the checks accept keeps every `U(q + i y)` away from the poles of
      log-gamma (its arguments have positive real part) and, for the tophat,
      away from the zeros of (4 - x)**2 - 1. */
  lemma AcceptedBiasAvoidsPoles(window: string, q: real, y: real)
    requires CheckWindow(window, q).Ok?
    ensures UpperArgument(Complex(q, y)).re > 0.0
    ensures window == "tophat" ==> LowerArgument(Complex(q, y)).re > 0.0
    ensures window == "tophat" ==> TophatDenominator(Complex(q, y)) != Zero
  {
    if window == "tophat" {
      var d := 4.0 - q;
      assert d > 1.0;
      if y == 0.0 {
        assert d * d > 1.0 by { assert d * d > d; }
        assert TophatDenominator(Complex(q, y)).re == d * d - 1.0;
      } else {
        assert TophatDenominator(Complex(q, y)).im == -(d * y + y * d);
        assert d * y != 0.0;
      }
    }
  }

  /** The tophat bound q < 3 is sharp: at q = 3 the zero-frequency coefficient
      divides by zero. */
  lemma TophatPoleAtThree()
    ensures TophatDenominator(Complex(3.0, 0.0)) == Zero
  {
    var d := CSub(Complex(4.0, 0.0), Complex(3.0, 0.0));
    assert d.re == 1.0 && d.im == 0.0;
    var m := CMul(d, d);
    assert m.re == 1.0 * 1.0 - 0.0 * 0.0;
  }

  // ---------------------------------------------------------------------
  // Low-ringing kr and the coefficient array
  // ---------------------------------------------------------------------

  /** `np.round`: to the nearest integer, halves to the even neighbour. */
  function RoundHalfEven(a: real): (r: int)
    ensures Abs(a - r as real) <= 0.5
    ensures Abs(a - r as real) == 0.5 ==> r % 2 == 0
  {
    var f := a.Floor;
    var d := a - f as real;
    if d < 0.5 then f
    else if d > 0.5 then f + 1
    else if f % 2 == 0 then f
    else f + 1
  }

  /** One transform coefficient `exp(-1j*y*lnkr)*U(q + 1j*y)`. */
  function Coefficient(nm: Numerics, w: Window, q: real, lnkr: real, y: real): Complex {
    CMul(nm.cexp(Complex(0.0, -y * lnkr)), U(nm, w, Complex(q, y)))
  }

  /** The kr adjustment: lnkr moves by dlnk times the distance of angle(u)/PI
      from its nearest integer, for u the coefficient at the Nyquist frequency PI/dlnk. */
  function LowRingingLnkr(nm: Numerics, w: Window, q: real, lnkr: real, dlnk: real): real {
    var y := Div(nm.fl, 3.141592653589793, dlnk);
    var u := Coefficient(nm, w, q, lnkr, y);
    lnkr + Shift(dlnk, nm.angle(u) / 3.141592653589793)
  }

  /** `dlnk*(a - np.round(a))`. */
  function Shift(dlnk: real, a: real): real {
    dlnk * (a - RoundHalfEven(a) as real)
  }

  /** The adjustment moves log kr by at most half a grid step. */
  lemma LowRingingShiftBound(nm: Numerics, w: Window, q: real, lnkr: real, dlnk: real)
    ensures Abs(LowRingingLnkr(nm, w, q, lnkr, dlnk) - lnkr) <= Abs(dlnk) / 2.0
  {
    var y := Div(nm.fl, 3.141592653589793, dlnk);
    ShiftBound(dlnk, nm.angle(Coefficient(nm, w, q, lnkr, y)) / 3.141592653589793);
  }

  /** A kr that already satisfies the low-ringing condition (the angle of its
      Nyquist coefficient is a multiple of PI) is left where it is. */
  lemma LowRingingFixedPoint(nm: Numerics, w: Window, q: real, lnkr: real, dlnk: real, j: int)
    requires nm.angle(Coefficient(nm, w, q, lnkr, Div(nm.fl, 3.141592653589793, dlnk)))
             == j as real * 3.141592653589793
    ensures LowRingingLnkr(nm, w, q, lnkr, dlnk) == lnkr
  {
    var y := Div(nm.fl, 3.141592653589793, dlnk);
    var a := nm.angle(Coefficient(nm, w, q, lnkr, y)) / 3.141592653589793;
    assert a == j as real;
    assert RoundHalfEven(a) == j;
  }

  lemma ShiftBound(dlnk: real, a: real)
    ensures Abs(Shift(dlnk, a)) <= Abs(dlnk) / 2.0
  {
    ScaledHalfBound(dlnk, a - RoundHalfEven(a) as real);
  }

  lemma ScaledHalfBound(d: real, e: real)
    requires Abs(e) <= 0.5
    ensures Abs(d * e) <= Abs(d) / 2.0
  {
    assert Abs(d * e) == Abs(d) * Abs(e);
    assert Abs(d) * Abs(e) <= Abs(d) * 0.5;
  }

  /** The log of the output shift: `np.log(kr)`, adjusted when `krgood`. */
  function FinalLnkr(nm: Numerics, g: Grid, q: real, kr: real, krgood: bool): real {
    if krgood then LowRingingLnkr(nm, g.window, q, nm.log(kr), g.dlnk) else nm.log(kr)
  }

  /** `np.linspace(0, 2*PI*(n//2)/(n*dlnk), n//2+1)`: the last point is the stop value itself. */
  function Frequencies(nm: Numerics, n: nat, dlnk: real): (ys: seq<real>)
    requires n >= 2
    ensures |ys| == n / 2 + 1
  {
    var h := n / 2;
    var stop := Div(nm.fl, 2.0 * 3.141592653589793 * h as real, n as real * dlnk);
    var step := stop / h as real;
    seq(h + 1, m => if m == h then stop else m as real * step)
  }

  /** With a proper grid the frequencies are y_m = 2 PI m/(n dlnk) for m = 0..n//2. */
  lemma FrequenciesFormula(nm: Numerics, n: nat, dlnk: real, m: nat)
    requires n >= 2 && dlnk != 0.0 && m <= n / 2
    ensures Frequencies(nm, n, dlnk)[m] == 2.0 * 3.141592653589793 * m as real / (n as real * dlnk)
  {
    var h := n / 2;
    var nd := n as real * dlnk;
    assert nd != 0.0;
    var stop := 2.0 * 3.141592653589793 * h as real / nd;
    assert stop * nd == 2.0 * 3.141592653589793 * h as real;
    var step := stop / h as real;
    assert step * h as real == stop;
    var target := 2.0 * 3.141592653589793 * m as real / nd;
    assert target * nd == 2.0 * 3.141592653589793 * m as real;
    assert (m as real * step) * nd * h as real == target * nd * h as real;
    StepFormula(m as real * step, target, nd * h as real);
  }

  lemma StepFormula(a: real, b: real, c: real)
    requires c != 0.0 && a * c == b * c
    ensures a == b
  {
    assert (a - b) * c == 0.0;
  }

  /** Coefficient m of a validated grid is the kernel at frequency 2 PI m/(n dlnk). */
  lemma RawCoefficientsAtFrequencies(nm: Numerics, g: Grid, q: real, lnkr: real, m: nat)
    requires g.n >= 2 && g.dlnk != 0.0 && m <= g.n / 2
    ensures RawCoefficients(nm, g, q, lnkr)[m]
            == Coefficient(nm, g.window, q, lnkr, 2.0 * 3.141592653589793 * m as real / (g.n as real * g.dlnk))
  {
    FrequenciesFormula(nm, g.n, g.dlnk, m);
  }

  /** `u` before the even-n fix. */
  function Coefficients(nm: Numerics, w: Window, q: real, lnkr: real, ys: seq<real>): (u: seq<Complex>)
    ensures |u| == |ys|
    ensures forall m :: 0 <= m < |ys| ==> u[m] == Coefficient(nm, w, q, lnkr, ys[m])
  {
    seq(|ys|, m requires 0 <= m < |ys| => Coefficient(nm, w, q, lnkr, ys[m]))
  }

  /** The coefficient array of a validated grid with the final lnkr. */
  function RawCoefficients(nm: Numerics, g: Grid, q: real, lnkr: real): (u: seq<Complex>)
    requires g.n >= 2
    ensures |u| == g.n / 2 + 1
  {
    Coefficients(nm, g.window, q, lnkr, Frequencies(nm, g.n, g.dlnk))
  }

  /** `u.imag[-1] = 0` when n is even; u unchanged when n is odd. */
  function NyquistFixed(u: seq<Complex>, n: nat): (v: seq<Complex>)
    requires |u| > 0
    ensures |v| == |u|
    ensures forall m :: 0 <= m < |u| - 1 ==> v[m] == u[m]
    ensures v[|u| - 1].re == u[|u| - 1].re
    ensures v[|u| - 1].im == (if n % 2 == 0 then 0.0 else u[|u| - 1].im)
  {
    if n % 2 == 0 then u[|u| - 1 := Complex(u[|u| - 1].re, 0.0)] else u
  }

  /** The factors `-(1 + q + 1j*y)` that turn the transform into d/dln r. */
  function DerivativeFactors(q: real, ys: seq<real>): (d: seq<Complex>)
    ensures |d| == |ys|
    ensures forall m :: 0 <= m < |ys| ==> d[m] == Complex(-(1.0 + q), -ys[m])
  {
    seq(|ys|, m requires 0 <= m < |ys| => Complex(-(1.0 + q), -ys[m]))
  }

  // ---------------------------------------------------------------------
  // Output grid and per-row result
  // ---------------------------------------------------------------------

  /** `np.exp(lnkr)/k[::-1]`. */
  function RGrid(nm: Numerics, k: seq<real>, lnkr: real): (r: seq<real>)
    ensures |r| == |k|
    ensures forall i :: 0 <= i < |k| ==> r[i] == Div(nm.fl, nm.exp(lnkr), k[|k| - 1 - i])
  {
    var rk := Reversed(k);
    ReversedIndexes(k);
    seq(|k|, i requires 0 <= i < |k| => Div(nm.fl, nm.exp(lnkr), rk[i]))
  }

  /** Every output scale pairs with the mirrored wavenumber: r[i] * k[n-1-i] = exp(lnkr). */
  lemma RGridPairsWithK(nm: Numerics, k: seq<real>, lnkr: real, i: nat)
    requires i < |k| && k[|k| - 1 - i] != 0.0
    ensures RGrid(nm, k, lnkr)[i] * k[|k| - 1 - i] == nm.exp(lnkr)
  {
  }

  /** A positive increasing k grid gives a positive increasing r grid. */
  lemma RGridIncreasing(nm: Numerics, k: seq<real>, lnkr: real)
    requires StrictlyIncreasing(k) && |k| > 0 && k[0] > 0.0 && nm.exp(lnkr) > 0.0
    ensures StrictlyIncreasing(RGrid(nm, k, lnkr))
  {
    var r, e, n := RGrid(nm, k, lnkr), nm.exp(lnkr), |k|;
    forall i, j | 0 <= i < j < n ensures r[i] < r[j] {
      var a, b := k[n - 1 - i], k[n - 1 - j];
      assert 0.0 < b < a by {
        if n - 1 - j > 0 {
          assert k[0] < b;
        }
      }
      QuotientDecreasesInDivisor(e, a, b);
    }
  }

  lemma QuotientDecreasesInDivisor(e: real, a: real, b: real)
    requires e > 0.0 && 0.0 < b < a
    ensures e / a < e / b
  {
    var x, y := e / a, e / b;
    assert x * a == e && y * b == e;
    assert x * b < x * a;
  }

  /** The weighted row `pk*k**(2-q)`. */
  function Weighted(nm: Numerics, k: seq<real>, row: seq<real>, q: real): (s: seq<real>)
    requires |row| == |k|
    ensures |s| == |k|
  {
    seq(|k|, j requires 0 <= j < |k| => row[j] * nm.fl.pow(k[j], 2.0 - q))
  }

  /** A positive spectrum on a positive k grid gives positive transform input. */
  lemma WeightedPositive(nm: Numerics, k: seq<real>, row: seq<real>, q: real)
    requires PowerLaw(nm.fl) && |row| == |k|
    requires forall j :: 0 <= j < |k| ==> k[j] > 0.0 && row[j] > 0.0
    ensures forall j :: 0 <= j < |k| ==> Weighted(nm, k, row, q)[j] > 0.0
  {
    forall j | 0 <= j < |k| ensures Weighted(nm, k, row, q)[j] > 0.0 {
      var p := nm.fl.pow(k[j], 2.0 - q);
      assert p > 0.0;
      assert row[j] * p > 0.0 * p;
    }
  }

  /** The powers `r**(1+q)`. */
  function Powers(nm: Numerics, r: seq<real>, e: real): (p: seq<real>)
    ensures |p| == |r|
  {
    seq(|r|, i requires 0 <= i < |r| => nm.fl.pow(r[i], e))
  }

  /** The output row of one product array cm: inverse transform, reversal, the
      division by 2 PI**2 and the division by r**(1+q). */
  function RowOutput(nm: Numerics, cm: seq<Complex>, n: nat, r: seq<real>, q: real): (s: seq<real>)
    requires |r| == n
    ensures |s| == n
  {
    var t := Reversed(Irfft(nm, cm, n));
    var p := Powers(nm, r, 1.0 + q);
    seq(n, i requires 0 <= i < n => Div(nm.fl, t[i] / (2.0 * 3.141592653589793 * 3.141592653589793), p[i]))
  }

  /** Output entry i comes from inverse-transform sample n-1-i, the sample belonging
      to wavenumber k[i]'s mirror, scaled by 1/(2 PI**2 r_i**(1+q)). */
  lemma RowOutputAt(nm: Numerics, cm: seq<Complex>, n: nat, r: seq<real>, q: real, i: nat)
    requires |r| == n && i < n
    ensures RowOutput(nm, cm, n, r, q)[i]
            == Div(nm.fl, nm.irfft(cm, n, n - 1 - i) / (2.0 * 3.141592653589793 * 3.141592653589793),
                   nm.fl.pow(r[i], 1.0 + q))
  {
    ReversedAt(Irfft(nm, cm, n), i);
  }

  /** The derivative row is the transform with the kernel u * -(1 + q + 1j*y). */
  lemma DerivativeKernel(c: seq<Complex>, u: seq<Complex>, d: seq<Complex>)
    requires |c| == |u| == |d|
    ensures Products(Products(c, u), d) == Products(c, Products(u, d))
  {
    forall m | 0 <= m < |c| ensures CMul(CMul(c[m], u[m]), d[m]) == CMul(c[m], CMul(u[m], d[m])) {
      CMulAssociative(c[m], u[m], d[m]);
    }
  }

  // ---------------------------------------------------------------------
  // In-place array steps
  // ---------------------------------------------------------------------

  /** `u.imag[-1] = 0` when n is even. */
  method FixNyquist(u: array<Complex>, n: nat)
    requires u.Length > 0
    modifies u
    ensures u[..] == NyquistFixed(old(u[..]), n)
  {
    if n % 2 == 0 {
      u[u.Length - 1] := Complex(u[u.Length - 1].re, 0.0);
    }
  }

  /** `cm *= f`. */
  method MultiplyInPlace(cm: array<Complex>, f: seq<Complex>)
    requires cm.Length == |f|
    modifies cm
    ensures cm[..] == Products(old(cm[..]), f)
  {
    for i := 0 to cm.Length
      invariant forall j :: 0 <= j < i ==> cm[j] == CMul(old(cm[j]), f[j])
      invariant forall j :: i <= j < cm.Length ==> cm[j] == old(cm[j])
    {
      cm[i] := CMul(cm[i], f[i]);
    }
  }

  /** `s[..., :] = s[..., ::-1]`, numpy copying the overlapping view first. */
  method ReverseInPlace(s: array<real>)
    modifies s
    ensures s[..] == Reversed(old(s[..]))
  {
    var n := s.Length;
    var i := 0;
    while i < n / 2
      invariant 0 <= i <= n / 2
      invariant forall t :: 0 <= t < i ==> s[t] == old(s[n - 1 - t]) && s[n - 1 - t] == old(s[t])
      invariant forall t :: i <= t < n - i ==> s[t] == old(s[t])
    {
      s[i], s[n - 1 - i] := s[n - 1 - i], s[i];
      i := i + 1;
    }
    ReversedIndexes(old(s[..]));
  }

  /** `s /= d` for a non-zero constant. */
  method DivideAllInPlace(s: array<real>, d: real)
    requires d != 0.0
    modifies s
    ensures forall i :: 0 <= i < s.Length ==> s[i] == old(s[i]) / d
  {
    for i := 0 to s.Length
      invariant forall j :: 0 <= j < i ==> s[j] == old(s[j]) / d
      invariant forall j :: i <= j < s.Length ==> s[j] == old(s[j])
    {
      s[i] := s[i] / d;
    }
  }

  /** `s /= p` elementwise. */
  method DivideEachInPlace(ops: FloatOps, s: array<real>, p: seq<real>)
    requires s.Length == |p|
    modifies s
    ensures forall i :: 0 <= i < s.Length ==> s[i] == Div(ops, old(s[i]), p[i])
  {
    for i := 0 to s.Length
      invariant forall j :: 0 <= j < i ==> s[j] == Div(ops, old(s[j]), p[j])
      invariant forall j :: i <= j < s.Length ==> s[j] == old(s[j])
    {
      s[i] := Div(ops, s[i], p[i]);
    }
  }

  /** Inverse transform of cm, then the reversal and both divisions, on a fresh array. */
  method Finish(nm: Numerics, cm: seq<Complex>, n: nat, r: seq<real>, q: real) returns (s: seq<real>)
    requires |r| == n
    ensures s == RowOutput(nm, cm, n, r, q)
  {
    var t := Irfft(nm, cm, n);
    var a := new real[n](i requires 0 <= i < n => t[i]);
    assert a[..] == t;
    ReverseInPlace(a);
    ghost var rev := a[..];
    DivideAllInPlace(a, 2.0 * 3.141592653589793 * 3.141592653589793);
    DivideEachInPlace(nm.fl, a, Powers(nm, r, 1.0 + q));
    assert rev == Reversed(t);
    assert forall i :: 0 <= i < n ==> a[i] == RowOutput(nm, cm, n, r, q)[i];
    s := a[..];
  }

  /** One row of pk through the transform: s2 and, when asked, ds2 (else empty).
      The in-place scaling of cm for the derivative comes after s2 is final. */
  method TransformRow(nm: Numerics, u: seq<Complex>, dfac: seq<Complex>, k: seq<real>,
                      row: seq<real>, q: real, r: seq<real>, deriv: bool)
    returns (s2: seq<real>, ds2: seq<real>)
    requires |row| == |k| == |r|
    requires |u| == |dfac| == |k| / 2 + 1
    ensures s2 == RowOutput(nm, Products(Rfft(nm, Weighted(nm, k, row, q)), u), |k|, r, q)
    ensures deriv ==> ds2 == RowOutput(nm, Products(Rfft(nm, Weighted(nm, k, row, q)), Products(u, dfac)), |k|, r, q)
    ensures !deriv ==> ds2 == []
  {
    var c := Rfft(nm, Weighted(nm, k, row, q));
    var cm := new Complex[|c|](i requires 0 <= i < |c| => c[i]);
    assert cm[..] == c;
    MultiplyInPlace(cm, u);
    s2 := Finish(nm, cm[..], |k|, r, q);
    ds2 := [];
    if deriv {
      MultiplyInPlace(cm, dfac);
      DerivativeKernel(c, u, dfac);
      ds2 := Finish(nm, cm[..], |k|, r, q);
    }
  }

  // ---------------------------------------------------------------------
  // sigma2_r
  // ---------------------------------------------------------------------

  /** `(r, s2)` or `(r, s2, ds2)`; s2 and ds2 hold one row per leading index of pk. */
  datatype Output =
    | Pair(r: seq<real>, s2: seq<seq<real>>)
    | Triple(r: seq<real>, s2: seq<seq<real>>, ds2: seq<seq<real>>)

  /** pk of shape pkShape, its leading axes flattened into rows of the last axis. */
  predicate WellShaped(pkShape: seq<nat>, pk: seq<seq<real>>) {
    |pkShape| > 0 ==> forall j :: 0 <= j < |pk| ==> |pk[j]| == Last(pkShape)
  }

  /** Row j of s2 (or of ds2 with `kernel` the derivative kernel) for a validated grid. */
  function ExpectedRow(nm: Numerics, k: seq<real>, row: seq<real>, q: real, lnkr: real,
                       kernel: seq<Complex>): seq<real>
    requires |row| == |k| && |kernel| == |k| / 2 + 1
  {
    RowOutput(nm, Products(Rfft(nm, Weighted(nm, k, row, q)), kernel), |k|, RGrid(nm, k, lnkr), q)
  }

  /** Every row of pk through the transform, independently of the others. */
  method TransformRows(nm: Numerics, u: seq<Complex>, dfac: seq<Complex>, k: seq<real>,
                       pk: seq<seq<real>>, q: real, lnkr: real, deriv: bool)
    returns (s2: seq<seq<real>>, ds2: seq<seq<real>>)
    requires forall j :: 0 <= j < |pk| ==> |pk[j]| == |k|
    requires |u| == |dfac| == |k| / 2 + 1
    ensures |s2| == |ds2| == |pk|
    ensures forall j :: 0 <= j < |pk| ==> s2[j] == ExpectedRow(nm, k, pk[j], q, lnkr, u)
    ensures deriv ==> forall j :: 0 <= j < |pk| ==> ds2[j] == ExpectedRow(nm, k, pk[j], q, lnkr, Products(u, dfac))
  {
    var r := RGrid(nm, k, lnkr);
    s2, ds2 := [], [];
    for j := 0 to |pk|
      invariant |s2| == |ds2| == j
      invariant forall i :: 0 <= i < j ==> s2[i] == ExpectedRow(nm, k, pk[i], q, lnkr, u)
      invariant deriv ==> forall i :: 0 <= i < j ==> ds2[i] == ExpectedRow(nm, k, pk[i], q, lnkr, Products(u, dfac))
    {
      var s, d := TransformRow(nm, u, dfac, k, pk[j], q, r, deriv);
      s2, ds2 := s2 + [s], ds2 + [d];
    }
  }

  /** `sigma2_r(k, pk, q, kr, window, krgood, deriv)`. */
  method Sigma2R(nm: Numerics, k: seq<real>, kNdim: nat, pkShape: seq<nat>, pk: seq<seq<real>>,
                 q: real, kr: real, window: string, krgood: bool, deriv: bool)
    returns (res: Result<Output, Error>)
    requires WellShaped(pkShape, pk)
    ensures var g := Validate(nm, k, kNdim, pkShape, q, window);
            g.Err? ==> res == Err(g.error)
    ensures var g := Validate(nm, k, kNdim, pkShape, q, window);
            g.Ok? ==> var u := RawCoefficients(nm, g.value, q, FinalLnkr(nm, g.value, q, kr, krgood));
                      (res.Err? <==> krgood && !nm.isclose0(Last(u).im)) &&
                      (res.Err? ==> res.error == NoLowRinging)
    ensures res.Ok? ==> (res.value.Triple? <==> deriv) && |res.value.s2| == |pk| &&
                        |res.value.r| == |k| >= 2
    ensures res.Ok? ==>
              var g := Validate(nm, k, kNdim, pkShape, q, window).value;
              var lnkr := FinalLnkr(nm, g, q, kr, krgood);
              var u := NyquistFixed(RawCoefficients(nm, g, q, lnkr), |k|);
              res.value.r == RGrid(nm, k, lnkr) &&
              forall j :: 0 <= j < |pk| ==> |pk[j]| == |k| && res.value.s2[j] == ExpectedRow(nm, k, pk[j], q, lnkr, u)
    ensures res.Ok? && deriv ==>
              var g := Validate(nm, k, kNdim, pkShape, q, window).value;
              var lnkr := FinalLnkr(nm, g, q, kr, krgood);
              var u := NyquistFixed(RawCoefficients(nm, g, q, lnkr), |k|);
              var d := DerivativeFactors(q, Frequencies(nm, g.n, g.dlnk));
              |res.value.ds2| == |pk| &&
              forall j :: 0 <= j < |pk| ==> |pk[j]| == |k| && res.value.ds2[j] == ExpectedRow(nm, k, pk[j], q, lnkr, Products(u, d))
  {
    var checked := Validate(nm, k, kNdim, pkShape, q, window);
    if checked.Err? {
      return Err(checked.error);
    }
    var g := checked.value;
    var n := |k|;
    var lnkr := nm.log(kr);
    if krgood {
      lnkr := LowRingingLnkr(nm, g.window, q, lnkr, g.dlnk);
    }
    var ys := Frequencies(nm, n, g.dlnk);
    var coeffs := Coefficients(nm, g.window, q, lnkr, ys);
    if krgood && !nm.isclose0(coeffs[|coeffs| - 1].im) {
      return Err(NoLowRinging);
    }
    var u := new Complex[|coeffs|](i requires 0 <= i < |coeffs| => coeffs[i]);
    assert u[..] == coeffs;
    FixNyquist(u, n);
    var r := RGrid(nm, k, lnkr);
    var s2, ds2 := TransformRows(nm, u[..], DerivativeFactors(q, ys), k, pk, q, lnkr, deriv);
    if deriv {
      res := Ok(Triple(r, s2, ds2));
    } else {
      res := Ok(Pair(r, s2));
    }
  }
}
